=== FILE: README.md ===
# Control logic of the ThreejsPractice exercises, in Dafny

This project models the parts of the three.js exercises that are sequential
logic rather than scene construction, and proves what they promise:

- **The robot arm of Exercise 6** (`robot.js`), in module `Robot`. It covers
  the authored rotations and placements that `createRobot` reads. It also
  covers:
  - the four link vectors V1–V4 it derives;
  - the normalization vector;
  - the fixed order of the eight controlled nodes;
  - `setRobotAngles`, which writes an eight-angle solver vector onto those
    nodes' rotations.

  A node's rotation is an `Euler` record. The arm's controlled state is the
  sequence of those records, in joint order.
- **The click handler of Exercise 6** (`scene.js`), in module `PickPlan`. It
  covers the world-to-arm-frame conversion of the sphere and the trash bin,
  the three command vectors (six solver angles followed by a finger pair),
  and the chain of three timed stages on the shared command vector. It also
  covers the initial vector applied at startup.
- **The custom cube of Exercise 3** (`scene.js`), in module `QuadMesh`. It
  covers the loop that packs positions, normals and texture coordinates into
  flat buffers, the loop that emits two triangles per group of four
  vertices, and `resizeRendererToDisplaySize`.
- **The reference grid of Exercise 2** (`scene1.js`), in module `CrossGrid`.
  It covers `createCross` and the double loop that places a cross at every
  lattice point.

Module `Geometry` holds the shared vocabulary: `Vec3`, `Vec2`, `Euler`, and
exact angles. An angle is `rad + steps·π/48`. Every angle constant the
modelled code writes (π, π/2, π/4, π/6, 5π/6, π/16) is a whole number of
steps, and so is every angle derived from them, such as the π/12 the
fingers start at. The model therefore compares angles exactly and never
approximates π. The scenes also write angles that are not fractions of π,
such as the per-frame increments of Exercise 2, but those lie outside the
modelled code.
`Geometry.Value` gives the real number an angle denotes for any value of π.
`ValueOfAdd`, `ValueOfNeg` and `FractionValues` show that the symbolic
arithmetic agrees with that reading.

The inverse-kinematics solver is a parameter `ik` of the click-handler
functions. Nothing is assumed about it beyond returning six angles, always the same
ones for the same request. The
tween engine is represented by what the handler relies on:
- a stage drives the shared vector to its target;
- a chained stage starts where its predecessor stopped;
- every frame writes the whole current vector through `setRobotAngles`.

## Model

| member | source | states |
|---|---|---|
| Robot.AuthoredPose | src/Exercises/Exercise6/robot.js:41-256 | of the controlled nodes, assembly rotates exactly base disc 2, rotation discs 1 and 4 and the two finger pivots; none about z, and the finger pivots are mirror images |
| Robot.V1 | src/Exercises/Exercise6/robot.js:101-117 | the shoulder-to-elbow link is (0, 1.755, 0), the y-offsets of the arm and the disc added |
| Robot.V2 | src/Exercises/Exercise6/robot.js:137-141 | the elbow-to-upper-base link is (0.1, 0.05, -0.3), the upper base's placement with y and z exchanged |
| Robot.V3 | src/Exercises/Exercise6/robot.js:152-202 | the forearm link is (1.6, 0, 0), three vertical placements laid along x |
| Robot.V4 | src/Exercises/Exercise6/robot.js:190-203 | the gripper link is (0, -0.4, 0), minus the pliers cylinder's height |
| Robot.NormalizationValues | src/Exercises/Exercise6/robot.js:286-295 | the offsets read from the authored rotations (disc1 y -= π/4, disc4 y -= 5π/6 plus π, finger pivots x ± π/6) are exactly [0, -π/4, π/6, 0, π/2, 0, π/6, -π/6] |
| Robot.CreateRobot | src/Exercises/Exercise6/robot.js:286-311 | the rig holds 8 offsets, 5 link vectors (V0 as given, then V1–V4 with their values) and the 8 control nodes in joint order: base disc 2, rotation disc 1, rotation disc 4, rotation cylinder, the PB-to-PRC pivot, pliers rotation cylinder, and the two finger pivots (PGB2, then PGB1) |
| Robot.ControlsMatchOffsets | src/Exercises/Exercise6/robot.js:286-310 | in the joint order the rig fixes, offset i equals the authored value of the component joint i drives on control i exactly for joints 1, 3, 5, 6 and 7; joint 0 reads the unturned base disc, joint 2 adds π, and joint 4 is π/2 on an unrotated pivot |
| Robot.SetRobotAngles | src/Exercises/Exercise6/robot.js:316-325 | joints 0–3 and 5 write rotation.y, joint 4 writes rotation.z, joints 6–7 write rotation.x; the value written is A[i] + norm[i], and norm[4] - A[4] for joint 4; no other component and no other node changes |
| Robot.ReadBack | src/Exercises/Exercise6/robot.js:316-325 | removing the offset from the written component and undoing the sign recovers the commanded eight angles exactly |
| Robot.LastWriteWins | src/Exercises/Exercise6/robot.js:316-325 | writing a second vector over a first gives the same arm as writing only the second |
| Robot.FingerWrites | src/Exercises/Exercise6/robot.js:293-324 | with the assembled offsets (π/6, -π/6) the finger pivots receive A[6] + π/6 and A[7] - π/6 |
| Robot.GripperSymmetry | src/Exercises/Exercise6/robot.js:316-325 | when the finger offsets are opposite, a command with A[7] = -A[6] writes opposite x-rotations to the two finger pivots |
| Robot.ZeroAngleKeeps | src/Exercises/Exercise6/robot.js:316-325 | a zero angle leaves a node unchanged if and only if the joint's offset equals the component the joint drives |
| Robot.ZeroCommandPose | src/Exercises/Exercise6/robot.js:286-310 | an all-zero vector puts joint i of the freshly assembled arm back in its authored rotation if and only if i is 1, 3, 5, 6 or 7 |
| PickPlan.Place | src/Exercises/Exercise6/scene.js:91-106 | a placement given relative to the calibration is a world point whose difference from the calibration is that offset |
| PickPlan.ToLocal | src/Exercises/Exercise6/scene.js:112-115 | the arm-frame target plus the calibration is the world point raised by the lift in y |
| PickPlan.LocalOfPlaced | src/Exercises/Exercise6/scene.js:103-115 | converting a placed point back gives its offset raised by the lift |
| PickPlan.SphereTarget | src/Exercises/Exercise6/scene.js:100-115 | the sphere, placed at (2, 0, 0) from the calibration, becomes the target (2, 0.3, 0): raised by its radius |
| PickPlan.TrashTarget | src/Exercises/Exercise6/scene.js:91-136 | the bin, placed at (-2, 0, -1) from the calibration, becomes the target (-2, 1.5, -1) |
| PickPlan.CommandParts | src/Exercises/Exercise6/scene.js:117-138 | a command is the six solver angles followed by (-g, g): its arm part and opening give back what it was built from, and every eight-angle vector with opposite fingers is such a command |
| PickPlan.PlanClick | src/Exercises/Exercise6/scene.js:110-149 | three stages: both grasp stages carry the solver's angles for the sphere target, the carry stage those for the bin target, all asking for orientation (0, 0, -π/2); openings π/6, π/16, π/16; 600, 200, 800 ms; ease out, out, in |
| PickPlan.CloseMovesOnlyFingers | src/Exercises/Exercise6/scene.js:117-118 | the second stage keeps the first stage's arm angles; the PGB1 finger pivot (joint 7) turns back and the PGB2 finger pivot (joint 6) forward by the same amount, π/6 - π/16, which for any positive π is positive and smaller than the opening, so both fingers move towards zero |
| PickPlan.RunChain | src/Exercises/Exercise6/scene.js:120-149 | the stages run in the chained order; the first starts from the current vector, and each later one from the target its predecessor reached |
| PickPlan.ChainIsContinuous | src/Exercises/Exercise6/scene.js:147-149 | every segment ends where the next one starts, and the last one ends where the chain leaves the vector |
| PickPlan.ClickDuration | src/Exercises/Exercise6/scene.js:120-146 | a click's motion lasts 1600 ms in total |
| PickPlan.ClickReaches | src/Exercises/Exercise6/scene.js:138-149 | a click leaves the vector at the carry command: the solver's angles for the bin target, fingers at ∓π/16 |
| PickPlan.ApplyFrames | src/Exercises/Exercise6/scene.js:120-146 | every frame writes the whole current vector; however many frames a run draws, the arm ends as if only the last vector had been written, and with no frames the arm is as it was |
| PickPlan.FramesReadBack | src/Exercises/Exercise6/scene.js:120-146 | after frames ending in an eight-angle vector, the arm reads back exactly that vector |
| PickPlan.ArmAfterClick | src/Exercises/Exercise6/scene.js:138-149 | once the last frame has drawn the carry target, the arm reads back the carry command |
| PickPlan.StartupCommand | src/Exercises/Exercise6/scene.js:70 | the initial vector is a command: six zero arm angles, opened to π/4 |
| PickPlan.Startup | src/Exercises/Exercise6/scene.js:70-71 | the single startup write of the initial vector to the freshly assembled arm leaves eight nodes that read back exactly that vector |
| PickPlan.StartupFingers | src/Exercises/Exercise6/scene.js:70-71 | the finger pivots start at -π/12 and π/12: the offsets ±π/6 plus the openings ∓π/4 |
| QuadMesh.PackAttributes | src/Exercises/Exercise3/scene.js:32-49 | buffers of 3n, 3n and 2n entries; entry t of the position and normal buffers is component t mod 3 of vertex t div 3, entry t of the uv buffer is component t mod 2 of vertex t div 2; the three write offsets end at 3n, 3n and 2n |
| QuadMesh.WriteTriple | src/Exercises/Exercise3/scene.js:43-44 | copying a triple in at a multiple of three fills the three entries of vertex at/3 in component order, and the entries before and after them stay unchanged |
| QuadMesh.WritePair | src/Exercises/Exercise3/scene.js:45 | copying a pair in at a multiple of two fills the two entries of vertex at/2 in order, and the entries before and after them stay unchanged |
| QuadMesh.PackedReadsBack | src/Exercises/Exercise3/scene.js:39-49 | reading vertex k back out of packed buffers gives the table's vertex k, so the buffers lose nothing |
| QuadMesh.QuadIndices | src/Exercises/Exercise3/scene.js:67-72 | the list has 6·⌈n/4⌉ entries, and entry t is corner t mod 6 of quad t div 6 |
| QuadMesh.QuadEntry | src/Exercises/Exercise3/scene.js:62-70 | group k of the list is 4k, 4k+1, 4k+2, 4k+2, 4k+1, 4k+3 |
| QuadMesh.QuadIndexStaysInItsQuad | src/Exercises/Exercise3/scene.js:69-71 | every index of group k lies in [4k, 4k+3] |
| QuadMesh.QuadIndexOrdered | src/Exercises/Exercise3/scene.js:69-71 | every index of a later group is larger than every index of an earlier one |
| QuadMesh.IndicesInRange | src/Exercises/Exercise3/scene.js:69-71 | all indices stay below n if and only if n is a multiple of four |
| QuadMesh.EveryVertexDrawn | src/Exercises/Exercise3/scene.js:69-71 | every vertex below n appears in the list |
| QuadMesh.ResizeRendererToDisplaySize | src/Exercises/Exercise3/scene.js:95-104 | the result is true exactly when the buffer's width or height differs from the displayed size; afterwards the buffer has the displayed size, and nothing changes when the result is false |
| QuadMesh.ResizeIsIdempotent | src/Exercises/Exercise3/scene.js:95-104 | a second call right after the first finds nothing to do |
| CrossGrid.CreateCross | src/Exercises/Exercise2/scene1.js:55-63 | five points, the first being the centre, all at the centre's height |
| CrossGrid.CrossIsTwoBars | src/Exercises/Exercise2/scene1.js:59-63 | the points form a bar of length 0.5 along x and one along z, and the third point is the midpoint of both |
| CrossGrid.CentreAndPosition | src/Exercises/Exercise2/scene1.js:76-80 | loop order and lattice correspond one to one: the pair (i, j) with -4 ≤ i < 56 and -19 ≤ j < 19 is placed at its position, and every position below 2280 holds an integer lattice point that maps back to it |
| CrossGrid.CentresDistinct | src/Exercises/Exercise2/scene1.js:76-80 | no cross is placed twice |
| CrossGrid.PlaceCrosses | src/Exercises/Exercise2/scene1.js:76-80 | 60 × 38 = 2280 crosses, the p-th being the cross at the p-th lattice point in loop order (i outer, j inner) at y = -3 |

## Left out

- Scene construction is not modelled. This covers meshes, materials, geometries, lights, the camera, the renderer, orbit controls and DOM insertion. Exercises 1 and 4 consist only of this kind of code; Exercise 4 repeats the arm's constants but has no control logic.
- V0, the shoulder link, is computed with the cosine and sine of π/4. `CreateRobot` takes it as a parameter.
- The `Kinematics` solver is not part of this model. The code checks no reachability and has no error path, so the model adds none.
- The tween engine is not modelled: interpolation, the easing curves, frame timing and `TWEEN.update`. A stage is modelled by its target, duration and easing label. The model assumes that a stage ends exactly at its target.
- Mouse-click dispatch (the three.interaction events) is not modelled, and neither are texture loading, the render loops or the per-frame rotation increments.
- PickPlan.RunChain, PickPlan.ClickReaches and PickPlan.ArmAfterClick describe one click's chain at a time. The handler has no guard, so a click during a motion builds a second chain on the same shared vector, and the tween engine then advances both chains every frame. Chains running at the same time on the shared vector are not modelled.
- QuadMesh.Vertex holds exactly a triple position, a triple normal and a pair of texture coordinates, so the vertex table is assumed to hold triples and pairs. The source copies whatever arrays the table holds. A shorter array leaves zeros in its slot. A longer one spills into the next vertex's slot, and raises a RangeError only at the last vertex.
- `holdingPoint` is not modelled. `createRobot` returns it, but the scene discards it.
- `angles4` is computed in the click handler and never used.
- Floating-point rounding is not modelled. All arithmetic is exact, so Float32 buffer rounding and the double-precision rounding of sums such as 1 + 0.755 are absent.
- Robot.SetRobotAngles requires at least eight entries in each argument. The source indexes entries 0 to 7, A shorter solver vector or offset list would write NaN, and a shorter control list would raise a TypeError when its missing node's rotation is read. Neither is modelled.
- QuadMesh.ResizeRendererToDisplaySize assumes the renderer's default pixel ratio of 1, so the drawing buffer takes exactly the displayed size.
- PickPlan.PlanClick models the solver as a function returning six angles, so the solver is assumed to always return six numbers, and always the same ones for the same request. The handler calls the solver separately for `angles1` and `angles2` with the same arguments; the model asks once and uses the answer for both, which is why the two grasp stages share their arm angles.
- The click handler has none of the following, and the model adds none:
  - a five-stage chain with release and fall stages;
  - a busy flag that ignores clicks during a motion;
  - an unreachable-target error;
  - reparenting the sphere to the gripper.
- The model makes no claim that an all-zero vector reproduces the authored pose of the arm. `Robot.ZeroCommandPose` states instead which joints it does reproduce.

=== FILE: cross_grid.dfy ===
/**
 The reference grid of Exercise 2 (`scene1.js`): `createCross` lays out the
 five points of one cross marker, and a double loop places one marker at
 every integer point of a 60 × 38 lattice on the plane y = -3.
 */
module CrossGrid {
  import opened Geometry

  /** Midpoint of two points. */
  function Midpoint(a: Vec3, b: Vec3): Vec3 {
    Vec3((a.x + b.x) / 2.0, (a.y + b.y) / 2.0, (a.z + b.z) / 2.0)
  }

  /** The five points a cross marker's line passes through, in drawing
      order: the centre, half a unit along x, back to the bar's middle,
      then a quarter unit to each side along z. */
  function CreateCross(center: Vec3): (pts: seq<Vec3>)
    ensures |pts| == 5 && pts[0] == center
    ensures forall k | 0 <= k < 5 :: pts[k].y == center.y
  {
    var x, y, z := center.x, center.y, center.z;
    [Vec3(x, y, z), Vec3(x + 0.5, y, z), Vec3(x + 0.25, y, z),
     Vec3(x + 0.25, y, z + 0.25), Vec3(x + 0.25, y, z - 0.25)]
  }

  /** A cross is two perpendicular bars of the same length that bisect each
      other: the first two points span a bar along x, the last two a bar
      along z, and the third point is the midpoint of both. */
  lemma CrossIsTwoBars(center: Vec3)
    ensures var pts := CreateCross(center);
            && pts[0].z == pts[1].z && pts[1].x - pts[0].x == 0.5
            && pts[3].x == pts[4].x && pts[3].z - pts[4].z == 0.5
            && pts[2] == Midpoint(pts[0], pts[1])
            && pts[2] == Midpoint(pts[3], pts[4])
  {
  }

  // The lattice the grid covers: i in [-4, 56), j in [-19, 19).
  const FirstI := -4
  const EndI := 56
  const FirstJ := -19
  const EndJ := 19
  const GridY := -3.0

  /** Crosses per row of the lattice. */
  const RowLength := EndJ - FirstJ

  /** Number of crosses placed. */
  const CrossCount := (EndI - FirstI) * RowLength

  /** The centre of the p-th cross placed: rows follow i, and within a row j
      counts up. */
  function Centre(p: nat): Vec3 {
    Vec3((FirstI + p / RowLength) as real, GridY, (FirstJ + p % RowLength) as real)
  }

  /** The place in the placement order of the cross centred at (i, -3, j). */
  function Position(i: int, j: int): int {
    (i - FirstI) * RowLength + (j - FirstJ)
  }

  /** Order and lattice correspond one to one: every lattice point is placed
      exactly at its position, and every position holds the lattice point
      it names. */
  lemma {:induction false} CentreAndPosition(i: int, j: int, p: nat)
    ensures FirstI <= i < EndI && FirstJ <= j < EndJ ==>
              0 <= Position(i, j) < CrossCount && Centre(Position(i, j)) == Vec3(i as real, GridY, j as real)
    ensures p < CrossCount ==>
              var c := Centre(p);
              && FirstI <= c.x.Floor < EndI && FirstJ <= c.z.Floor < EndJ
              && c.x == c.x.Floor as real && c.z == c.z.Floor as real
              && Position(c.x.Floor, c.z.Floor) == p
  {
    if FirstI <= i < EndI && FirstJ <= j < EndJ {
      var q := Position(i, j);
      assert q / RowLength == i - FirstI && q % RowLength == j - FirstJ;
    }
    if p < CrossCount {
      assert p == (p / RowLength) * RowLength + p % RowLength;
    }
  }

  /** No cross is placed twice: distinct positions hold distinct centres. */
  lemma {:induction false} CentresDistinct(p: nat, q: nat)
    requires p < CrossCount && q < CrossCount && p != q
    ensures Centre(p) != Centre(q)
  {
    CentreAndPosition(0, 0, p);
    CentreAndPosition(0, 0, q);
  }

  /** The double loop: for i from -4 below 56 and, inside, j from -19
      below 19, one cross centred at (i, -3, j). */
  method PlaceCrosses() returns (crosses: seq<seq<Vec3>>)
    ensures |crosses| == CrossCount
    ensures forall p | 0 <= p < |crosses| :: crosses[p] == CreateCross(Centre(p))
  {
    crosses := [];
    var i := FirstI;
    while i < EndI
      invariant FirstI <= i <= EndI
      invariant |crosses| == (i - FirstI) * RowLength
      invariant forall p | 0 <= p < |crosses| :: crosses[p] == CreateCross(Centre(p))
    {
      var j := FirstJ;
      while j < EndJ
        invariant FirstJ <= j <= EndJ
        invariant |crosses| == (i - FirstI) * RowLength + (j - FirstJ)
        invariant forall p | 0 <= p < |crosses| :: crosses[p] == CreateCross(Centre(p))
      {
        CentreAndPosition(i, j, 0);
        crosses := crosses + [CreateCross(Vec3(i as real, GridY, j as real))];
        j := j + 1;
      }
      i := i + 1;
    }
  }
}

=== FILE: geometry.dfy ===
/**
 Exact arithmetic shared by the scene models: points and directions as
 triples of reals, and angles kept symbolically in π so that every constant
 the modelled code writes (π/2, -5π/6, π/16, ...) is represented without
 rounding.
 */
module Geometry {

  /** A point or offset in a three.js scene (`Vector3`, or a `[x, y, z]` array). */
  datatype Vec3 = Vec3(x: real, y: real, z: real)

  /** A texture coordinate pair. */
  datatype Vec2 = Vec2(u: real, v: real)

  function Plus(a: Vec3, b: Vec3): Vec3 {
    Vec3(a.x + b.x, a.y + b.y, a.z + b.z)
  }

  function Minus(a: Vec3, b: Vec3): Vec3 {
    Vec3(a.x - b.x, a.y - b.y, a.z - b.z)
  }

  /** The angle `rad + steps·π/48`. Every angle constant the modelled code
      writes is a whole multiple of π/48 (π/2, π/4, π/6, 5π/6, π/16), so each is an
      exact integer count of steps, and two angles built from the same
      fractions of π compare equal whatever the value of π is. */
  datatype Angle = Angle(rad: real, steps: int)

  /** Steps in a half turn. */
  const StepsPerPi := 48

  const Zero := Angle(0.0, 0)
  const Pi := Angle(0.0, StepsPerPi)

  // The fractions of π the modelled code uses, and the derived π/12, in steps.
  const PiOver2 := Angle(0.0, 24)
  const PiOver4 := Angle(0.0, 12)
  const PiOver6 := Angle(0.0, 8)
  const PiOver12 := Angle(0.0, 4)
  const PiOver16 := Angle(0.0, 3)
  const FiveSixthsPi := Angle(0.0, 40)

  function Add(a: Angle, b: Angle): Angle {
    Angle(a.rad + b.rad, a.steps + b.steps)
  }

  function Neg(a: Angle): Angle {
    Angle(-a.rad, -a.steps)
  }

  function Sub(a: Angle, b: Angle): Angle {
    Add(a, Neg(b))
  }

  /** Subtracting what was added gives back the original angle. */
  lemma AddCancels(a: Angle, b: Angle)
    ensures Sub(Add(a, b), b) == a
  {
  }

  /** The real number an angle denotes once a value for π is fixed. */
  function Value(a: Angle, pi: real): real {
    a.rad + a.steps as real * pi / StepsPerPi as real
  }

  /** The symbolic sum denotes the sum of the denoted values, for every π. */
  lemma ValueOfAdd(a: Angle, b: Angle, pi: real)
    ensures Value(Add(a, b), pi) == Value(a, pi) + Value(b, pi)
  {
    assert (a.steps + b.steps) as real * pi == a.steps as real * pi + b.steps as real * pi;
  }

  lemma ValueOfNeg(a: Angle, pi: real)
    ensures Value(Neg(a), pi) == -Value(a, pi)
  {
    assert (-a.steps) as real * pi == -(a.steps as real * pi);
  }

  /** Each named fraction denotes that fraction of π. */
  lemma FractionValues(pi: real)
    ensures Value(Pi, pi) == pi
    ensures Value(PiOver2, pi) == pi / 2.0 && Value(PiOver4, pi) == pi / 4.0
    ensures Value(PiOver6, pi) == pi / 6.0 && Value(PiOver12, pi) == pi / 12.0
    ensures Value(PiOver16, pi) == pi / 16.0 && Value(FiveSixthsPi, pi) == 5.0 * pi / 6.0
  {
  }

  /** The three components of an `Object3D.rotation`. */
  datatype Axis = X | Y | Z

  /** A node's Euler rotation; each component is written independently. */
  datatype Euler = Euler(x: Angle, y: Angle, z: Angle) {

    function Get(axis: Axis): Angle {
      match axis
      case X => x
      case Y => y
      case Z => z
    }
  }

  /** The rotation of a freshly created `Object3D`. */
  const Unrotated := Euler(Zero, Zero, Zero)
}

=== FILE: pick_plan.dfy ===
/**
 The click handler of Exercise 6 (`scene.js`): converting the sphere's and
 the trash bin's world placement into targets in the arm's own frame,
 building the three eight-element commands from the inverse-kinematics
 solution and a gripper opening, and running the three timed stages one
 after the other on the shared command vector.

 The inverse-kinematics solver is not part of this model: it is a parameter
 `ik`, about which nothing is assumed beyond returning six angles, always
 the same ones for the same request.
 The tween engine is modelled by what the handler relies on: a stage drives
 the shared vector from wherever it stands to the stage's target, a chained
 stage starts when its predecessor ends, and every frame writes the current
 vector to the arm.
 */
module PickPlan {
  import opened Geometry
  import opened Robot

  /** Where the arm's base sits in the world; every placement is given relative to it. */
  const CoordsCalibration := Vec3(0.0, -2.0, -5.0)

  /** The sphere's radius, the first of its geometry parameters. */
  const SphereRadius: real := 0.3

  /** How far above the bin's base the gripper is sent to drop the sphere. */
  const TrashLift: real := 1.5

  /** The sphere's and the bin's placements, relative to the calibration. */
  const SphereOffset := Vec3(2.0, 0.0, 0.0)
  const TrashBinOffset := Vec3(-2.0, 0.0, -1.0)

  /** A placement given relative to the calibration, in world coordinates. */
  function Place(offset: Vec3): (w: Vec3)
    ensures Minus(w, CoordsCalibration) == offset
  {
    Vec3(offset.x + CoordsCalibration.x, offset.y + CoordsCalibration.y, offset.z + CoordsCalibration.z)
  }

  const SpherePosition := Place(SphereOffset)
  const TrashBinPosition := Place(TrashBinOffset)

  /** A world point as a target in the arm's frame, `lift` above it: the
      calibration is removed per axis, and `lift` is folded into the y
      correction the way the handler writes it (`y -= c.y - lift`). */
  function ToLocal(world: Vec3, lift: real): (local: Vec3)
    ensures Plus(local, CoordsCalibration) == Vec3(world.x, world.y + lift, world.z)
  {
    Vec3(world.x - CoordsCalibration.x,
         world.y - (CoordsCalibration.y - lift),
         world.z - CoordsCalibration.z)
  }

  /** Converting a placement back recovers the offset it was placed at, raised by the lift. */
  lemma LocalOfPlaced(offset: Vec3, lift: real)
    ensures ToLocal(Place(offset), lift) == Vec3(offset.x, offset.y + lift, offset.z)
  {
  }

  /** The sphere's target: its authored offset, raised by its radius. */
  lemma SphereTarget()
    ensures ToLocal(SpherePosition, SphereRadius) == Vec3(2.0, 0.3, 0.0)
  {
    LocalOfPlaced(SphereOffset, SphereRadius);
  }

  /** The bin's target: its authored offset, 1.5 above its base. */
  lemma TrashTarget()
    ensures ToLocal(TrashBinPosition, TrashLift) == Vec3(-2.0, 1.5, -1.0)
  {
    LocalOfPlaced(TrashBinOffset, TrashLift);
  }

  /** The arguments of one call to the solver: a target point and the
      three Euler angles of the requested tool orientation. */
  datatype IkRequest = IkRequest(target: Vec3, orientation: Euler)

  /** The orientation every call asks for: (0, 0, -π/2). */
  const GraspOrientation := Euler(Zero, Zero, Neg(PiOver2))

  /** The six arm angles a solver returns. */
  type ArmAngles = s: seq<Angle> | |s| == 6 witness [Zero, Zero, Zero, Zero, Zero, Zero]

  /** A full command: the six arm angles followed by the finger pair (-g, g). */
  function Command(arm: ArmAngles, g: Angle): (c: seq<Angle>)
    ensures |c| == 8
  {
    arm + [Neg(g), g]
  }

  /** The arm part of a command. */
  function ArmOf(c: seq<Angle>): (arm: ArmAngles)
    requires |c| == 8
  {
    c[..6]
  }

  /** The opening of a command's gripper: the second finger's angle. */
  function GripOf(c: seq<Angle>): Angle
    requires |c| == 8
  {
    c[7]
  }

  /** A command is determined by its arm part and its opening, and every
      eight-angle vector whose fingers are opposite is a command. */
  lemma {:induction false} CommandParts(arm: ArmAngles, g: Angle, c: seq<Angle>)
    ensures ArmOf(Command(arm, g)) == arm && GripOf(Command(arm, g)) == g
    ensures Command(arm, g)[6] == Neg(Command(arm, g)[7])
    ensures |c| == 8 && c[6] == Neg(c[7]) ==> c == Command(ArmOf(c), GripOf(c))
  {
    var cmd := Command(arm, g);
    assert cmd[..6] == arm;
    if |c| == 8 && c[6] == Neg(c[7]) {
      var rebuilt := Command(ArmOf(c), GripOf(c));
      forall k | 0 <= k < 8
        ensures rebuilt[k] == c[k]
      {
        if k < 6 {
          assert rebuilt[k] == c[..6][k];
        }
      }
    }
  }

  /** The openings the handler uses: wide before grasping, nearly closed
      while holding. */
  const OpenGrip := PiOver6
  const ClosedGrip := PiOver16

  /** The tween engine's easing curves the stages name. */
  datatype Easing = QuadraticOut | QuadraticIn

  /** One timed stage: drive the shared vector to `target` over `duration` milliseconds. */
  datatype Stage = Stage(target: seq<Angle>, duration: nat, easing: Easing)

  /** The three stages a click on the sphere builds, in the order they are
      chained: reach open, close on the sphere, carry to the bin. */
  function PlanClick(ik: IkRequest -> ArmAngles, sphere: Vec3, trashBin: Vec3): (plan: seq<Stage>)
    ensures |plan| == 3
    ensures forall k | 0 <= k < 3 :: |plan[k].target| == 8 && plan[k].target[6] == Neg(plan[k].target[7])
    ensures ArmOf(plan[0].target) == ArmOf(plan[1].target)
            == ik(IkRequest(ToLocal(sphere, SphereRadius), GraspOrientation))
    ensures ArmOf(plan[2].target) == ik(IkRequest(ToLocal(trashBin, TrashLift), GraspOrientation))
    ensures GripOf(plan[0].target) == OpenGrip
    ensures GripOf(plan[1].target) == GripOf(plan[2].target) == ClosedGrip
    ensures plan[0].duration == 600 && plan[1].duration == 200 && plan[2].duration == 800
    ensures plan[0].easing == plan[1].easing == QuadraticOut && plan[2].easing == QuadraticIn
  {
    var grasp := ik(IkRequest(ToLocal(sphere, SphereRadius), GraspOrientation));
    var drop := ik(IkRequest(ToLocal(trashBin, TrashLift), GraspOrientation));
    CommandParts(grasp, OpenGrip, []);
    CommandParts(grasp, ClosedGrip, []);
    CommandParts(drop, ClosedGrip, []);
    [Stage(Command(grasp, OpenGrip), 600, QuadraticOut),
     Stage(Command(grasp, ClosedGrip), 200, QuadraticOut),
     Stage(Command(drop, ClosedGrip), 800, QuadraticIn)]
  }

  /** How far closing on the sphere turns each finger: π/6 - π/16 = 5π/48. */
  const GripClosing := Sub(OpenGrip, ClosedGrip)

  /** Closing on the sphere moves only the fingers, and the fingers close:
      the second finger turns back by `GripClosing` and the first forward by
      the same amount, and for any positive π that amount is positive yet
      smaller than the opening, so both fingers move towards zero without
      crossing it. */
  lemma CloseMovesOnlyFingers(ik: IkRequest -> ArmAngles, sphere: Vec3, trashBin: Vec3, pi: real)
    requires pi > 0.0
    ensures var plan := PlanClick(ik, sphere, trashBin);
            && plan[1].target[..6] == plan[0].target[..6]
            && plan[1].target[7] == Sub(plan[0].target[7], GripClosing)
            && plan[1].target[6] == Add(plan[0].target[6], GripClosing)
            && 0.0 < Value(GripClosing, pi) < Value(plan[0].target[7], pi)
  {
    ClosingIsPartial(pi);
  }

  /** For any positive π, closing turns a finger by a positive amount that
      is smaller than the opening it starts from. */
  lemma ClosingIsPartial(pi: real)
    requires pi > 0.0
    ensures 0.0 < Value(GripClosing, pi) < Value(OpenGrip, pi)
  {
  }

  /** One stretch of motion as the engine runs it. */
  datatype Segment = Segment(from: seq<Angle>, to: seq<Angle>, duration: nat, easing: Easing)

  /** Running a chain from `current`: each stage starts from where the
      shared vector stands, which for every stage after the first is the
      target its predecessor reached. */
  function RunChain(current: seq<Angle>, stages: seq<Stage>): (run: seq<Segment>)
    decreases |stages|
    ensures |run| == |stages|
    ensures forall k | 0 <= k < |stages| ::
              run[k].to == stages[k].target
              && run[k].duration == stages[k].duration
              && run[k].easing == stages[k].easing
    ensures |stages| > 0 ==> run[0].from == current
    ensures forall k | 0 < k < |stages| :: run[k].from == stages[k - 1].target
  {
    if |stages| == 0 then []
    else
      var s := stages[0];
      [Segment(current, s.target, s.duration, s.easing)] + RunChain(s.target, stages[1..])
  }

  /** Where a chain leaves the shared vector. */
  function Reached(current: seq<Angle>, stages: seq<Stage>): seq<Angle> {
    if |stages| == 0 then current else stages[|stages| - 1].target
  }

  /** Total time of a chain. */
  function TotalDuration(stages: seq<Stage>): nat {
    if |stages| == 0 then 0 else stages[0].duration + TotalDuration(stages[1..])
  }

  /** The run is seamless: every segment ends where the next begins, and
      the last one ends where the chain leaves the vector. */
  lemma {:induction false} ChainIsContinuous(current: seq<Angle>, stages: seq<Stage>)
    ensures var run := RunChain(current, stages);
            && (forall k | 0 <= k < |run| - 1 :: run[k].to == run[k + 1].from)
            && (|run| > 0 ==> run[|run| - 1].to == Reached(current, stages))
  {
  }

  /** A three-stage chain lasts as long as its three stages together. */
  lemma TotalDurationOfThree(stages: seq<Stage>)
    requires |stages| == 3
    ensures TotalDuration(stages) == stages[0].duration + stages[1].duration + stages[2].duration
  {
    assert TotalDuration(stages[2..]) == stages[2].duration + TotalDuration(stages[3..]);
    assert stages[1..][1..] == stages[2..];
  }

  /** A click's plan takes 1.6 seconds. */
  lemma ClickDuration(ik: IkRequest -> ArmAngles, sphere: Vec3, trashBin: Vec3)
    ensures TotalDuration(PlanClick(ik, sphere, trashBin)) == 1600
  {
    TotalDurationOfThree(PlanClick(ik, sphere, trashBin));
  }

  /** A click's plan leaves the vector at the carry command: the arm
      holding the sphere over the bin, the fingers at the closed opening. */
  lemma ClickReaches(ik: IkRequest -> ArmAngles, sphere: Vec3, trashBin: Vec3, current: seq<Angle>)
    ensures Reached(current, PlanClick(ik, sphere, trashBin))
         == Command(ik(IkRequest(ToLocal(trashBin, TrashLift), GraspOrientation)), ClosedGrip)
  {
    var plan := PlanClick(ik, sphere, trashBin);
    var drop := ik(IkRequest(ToLocal(trashBin, TrashLift), GraspOrientation));
    CommandParts(drop, ClosedGrip, plan[2].target);
  }

  /** The arm as the frames leave it: every frame writes the whole current
      vector through `SetRobotAngles`. However many intermediate frames a
      run draws, the arm ends up exactly as if only the last vector had
      been written. */
  function ApplyFrames(controls: seq<Euler>, norm: seq<Angle>, frames: seq<seq<Angle>>): (r: seq<Euler>)
    requires |controls| >= 8 && |norm| >= 8
    requires forall k | 0 <= k < |frames| :: |frames[k]| >= 8
    ensures |r| == |controls|
    ensures |frames| == 0 ==> r == controls
    ensures |frames| > 0 ==> r == SetRobotAngles(controls, norm, frames[|frames| - 1])
    decreases |frames|
  {
    if |frames| == 0 then controls
    else
      LastWriteWins(controls, norm, frames[0], frames[|frames| - 1]);
      ApplyFrames(SetRobotAngles(controls, norm, frames[0]), norm, frames[1..])
  }

  /** Once the last frame has drawn an eight-angle vector, the arm reads
      back exactly that vector, whatever the frames before it. */
  lemma {:induction false} FramesReadBack(controls: seq<Euler>, norm: seq<Angle>, frames: seq<seq<Angle>>)
    requires |controls| >= 8 && |norm| >= 8 && |frames| > 0
    requires forall k | 0 <= k < |frames| :: |frames[k]| >= 8
    requires |frames[|frames| - 1]| == 8
    ensures ReadJointAngles(ApplyFrames(controls, norm, frames), norm) == frames[|frames| - 1]
  {
    var last := frames[|frames| - 1];
    ReadBack(controls, norm, last);
    assert last[..8] == last;
  }

  /** Once a click's last frame has drawn the carry stage's target, the arm
      reads back the carry command. */
  lemma ArmAfterClick(ik: IkRequest -> ArmAngles, sphere: Vec3, trashBin: Vec3,
                      controls: seq<Euler>, frames: seq<seq<Angle>>)
    requires |controls| >= 8 && |frames| > 0
    requires forall k | 0 <= k < |frames| :: |frames[k]| >= 8
    requires frames[|frames| - 1] == PlanClick(ik, sphere, trashBin)[2].target
    ensures ReadJointAngles(ApplyFrames(controls, NormalizationAngles(), frames), NormalizationAngles())
         == Command(ik(IkRequest(ToLocal(trashBin, TrashLift), GraspOrientation)), ClosedGrip)
  {
    FramesReadBack(controls, NormalizationAngles(), frames);
    var drop := ik(IkRequest(ToLocal(trashBin, TrashLift), GraspOrientation));
    CommandParts(drop, ClosedGrip, frames[|frames| - 1]);
  }

  /** The vector the scene starts from: the arm straight, the fingers at ±π/4. */
  const InitialCommand: seq<Angle> :=
    [Zero, Zero, Zero, Zero, Zero, Zero, Neg(PiOver4), PiOver4]

  /** The scene applies the initial vector once, to the freshly assembled
      arm, which then reads back exactly that vector. */
  function Startup(): (r: seq<Euler>)
    ensures |r| == 8
    ensures ReadJointAngles(r, NormalizationAngles()) == InitialCommand
  {
    FramesReadBack(AuthoredControls(), NormalizationAngles(), [InitialCommand]);
    SetRobotAngles(AuthoredControls(), NormalizationAngles(), InitialCommand)
  }

  /** The initial vector is a command: six zero arm angles, opened to π/4. */
  lemma StartupCommand()
    ensures InitialCommand == Command([Zero, Zero, Zero, Zero, Zero, Zero], PiOver4)
  {
  }

  /** The fingers start at ∓π/12: the offsets ±π/6 plus the openings ∓π/4. */
  lemma StartupFingers()
    ensures Startup()[6].x == Neg(PiOver12) && Startup()[7].x == PiOver12
  {
    FingerWrites(AuthoredControls(), InitialCommand);
  }
}

=== FILE: quad_mesh.dfy ===
/**
 The custom cube of Exercise 3 (`scene.js`): packing the per-vertex
 attributes into the flat buffers a `BufferGeometry` is built from, the
 index list that draws every group of four vertices as a quad of two
 triangles, and the predicate that decides when the renderer must follow
 the canvas' displayed size.
 */
module QuadMesh {
  import opened Geometry

  /** One entry of the vertex table: position, normal and texture coordinate. */
  datatype Vertex = Vertex(pos: Vec3, norm: Vec3, uv: Vec2)

  // Components per vertex in each buffer.
  const PositionComponents := 3
  const NormalComponents := 3
  const UvComponents := 2

  /** Component c (0, 1, 2 for x, y, z) of a triple. */
  function Coord(p: Vec3, c: nat): real
    requires c < 3
  {
    if c == 0 then p.x else if c == 1 then p.y else p.z
  }

  /** Component c (0, 1 for u, v) of a pair. */
  function UvCoord(t: Vec2, c: nat): real
    requires c < 2
  {
    if c == 0 then t.u else t.v
  }

  /** The layout the packing loop produces: entry t of the position and
      normal buffers is component t % 3 of vertex t / 3, entry t of the uv
      buffer is component t % 2 of vertex t / 2; so vertex k occupies
      [3k, 3k+3) and [2k, 2k+2), in component order. */
  ghost predicate Packed(vertices: seq<Vertex>, positions: seq<real>, normals: seq<real>, uvs: seq<real>) {
    && |positions| == PositionComponents * |vertices|
    && |normals| == NormalComponents * |vertices|
    && |uvs| == UvComponents * |vertices|
    && (forall t | 0 <= t < |positions| :: positions[t] == Coord(vertices[t / 3].pos, t % 3))
    && (forall t | 0 <= t < |normals| :: normals[t] == Coord(vertices[t / 3].norm, t % 3))
    && (forall t | 0 <= t < |uvs| :: uvs[t] == UvCoord(vertices[t / 2].uv, t % 2))
  }

  /** Entry `d·k + c` of a buffer with `d` components per vertex is
      component c of vertex k. */
  lemma Strided(d: nat, k: nat, c: nat)
    requires d == 2 || d == 3
    requires c < d
    ensures (d * k + c) / d == k && (d * k + c) % d == c
  {
  }

  /** Fills three zero-initialised buffers of 3n, 3n and 2n components,
      advancing one write offset per buffer by its component count after
      every vertex. Every write lands inside its buffer. */
  method PackAttributes(vertices: seq<Vertex>)
    returns (positions: seq<real>, normals: seq<real>, uvs: seq<real>,
             posNdx: nat, nrmNdx: nat, uvNdx: nat)
    ensures Packed(vertices, positions, normals, uvs)
    ensures posNdx == |positions| && nrmNdx == |normals| && uvNdx == |uvs|
  {
    var n := |vertices|;
    positions := seq(PositionComponents * n, _ => 0.0);
    normals := seq(NormalComponents * n, _ => 0.0);
    uvs := seq(UvComponents * n, _ => 0.0);
    posNdx, nrmNdx, uvNdx := 0, 0, 0;
    var k := 0;
    while k < n
      invariant 0 <= k <= n
      invariant posNdx == 3 * k && nrmNdx == 3 * k && uvNdx == 2 * k
      invariant |positions| == 3 * n && |normals| == 3 * n && |uvs| == 2 * n
      invariant forall t | 0 <= t < posNdx :: positions[t] == Coord(vertices[t / 3].pos, t % 3)
      invariant forall t | 0 <= t < nrmNdx :: normals[t] == Coord(vertices[t / 3].norm, t % 3)
      invariant forall t | 0 <= t < uvNdx :: uvs[t] == UvCoord(vertices[t / 2].uv, t % 2)
    {
      var v := vertices[k];
      WriteTriple(positions, posNdx, v.pos);
      WriteTriple(normals, nrmNdx, v.norm);
      WritePair(uvs, uvNdx, v.uv);
      positions := positions[posNdx := v.pos.x][posNdx + 1 := v.pos.y][posNdx + 2 := v.pos.z];
      normals := normals[nrmNdx := v.norm.x][nrmNdx + 1 := v.norm.y][nrmNdx + 2 := v.norm.z];
      uvs := uvs[uvNdx := v.uv.u][uvNdx + 1 := v.uv.v];
      posNdx := posNdx + PositionComponents;
      nrmNdx := nrmNdx + NormalComponents;
      uvNdx := uvNdx + UvComponents;
      k := k + 1;
    }
  }

  /** Copying a triple in at offset `at`, a multiple of three: the three
      entries from `at` on become the triple's components in order, as
      entries of the vertex `at / 3`; the entries before and after them
      stay as they were. */
  lemma WriteTriple(buf: seq<real>, at: nat, p: Vec3)
    requires at % 3 == 0 && at + 3 <= |buf|
    ensures var b := buf[at := p.x][at + 1 := p.y][at + 2 := p.z];
            && |b| == |buf|
            && (forall t | 0 <= t < at :: b[t] == buf[t])
            && (forall t | at <= t < at + 3 :: t / 3 == at / 3 && b[t] == Coord(p, t % 3))
            && (forall t | at + 3 <= t < |buf| :: b[t] == buf[t])
  {
  }

  /** Copying a pair in at offset `at`, a multiple of two. */
  lemma WritePair(buf: seq<real>, at: nat, p: Vec2)
    requires at % 2 == 0 && at + 2 <= |buf|
    ensures var b := buf[at := p.u][at + 1 := p.v];
            && |b| == |buf|
            && (forall t | 0 <= t < at :: b[t] == buf[t])
            && (forall t | at <= t < at + 2 :: t / 2 == at / 2 && b[t] == UvCoord(p, t % 2))
            && (forall t | at + 2 <= t < |buf| :: b[t] == buf[t])
  {
  }

  /** Vertex k as a consumer of the buffers reads it back. */
  function VertexAt(positions: seq<real>, normals: seq<real>, uvs: seq<real>, k: nat): Vertex
    requires 3 * k + 3 <= |positions| && 3 * k + 3 <= |normals| && 2 * k + 2 <= |uvs|
  {
    Vertex(Vec3(positions[3 * k], positions[3 * k + 1], positions[3 * k + 2]),
           Vec3(normals[3 * k], normals[3 * k + 1], normals[3 * k + 2]),
           Vec2(uvs[2 * k], uvs[2 * k + 1]))
  }

  /** The packed buffers lose nothing: reading vertex k back gives the
      table's vertex k, and so the buffers determine the table. */
  lemma {:induction false} PackedReadsBack(vertices: seq<Vertex>, positions: seq<real>,
                                           normals: seq<real>, uvs: seq<real>, k: nat)
    requires Packed(vertices, positions, normals, uvs) && k < |vertices|
    ensures VertexAt(positions, normals, uvs, k) == vertices[k]
  {
    Strided(3, k, 0);
    Strided(3, k, 1);
    Strided(3, k, 2);
    Strided(2, k, 0);
    Strided(2, k, 1);
    var v := vertices[k];
    assert v.pos == Vec3(v.pos.x, v.pos.y, v.pos.z);
    assert v.norm == Vec3(v.norm.x, v.norm.y, v.norm.z);
    assert v.uv == Vec2(v.uv.u, v.uv.v);
  }

  /** The offsets of one quad's six indices: triangles (0, 1, 2) and (2, 1, 3). */
  const QuadCorners: seq<nat> := [0, 1, 2, 2, 1, 3]

  /** Entry t of the index list: corner t % 6 of quad t / 6. */
  function QuadIndex(t: nat): nat {
    4 * (t / 6) + QuadCorners[t % 6]
  }

  /** Entry `6·k + c` of the index list is corner c of quad k. */
  lemma QuadEntry(k: nat, c: nat)
    requires c < 6
    ensures QuadIndex(6 * k + c) == 4 * k + QuadCorners[c]
  {
    assert (6 * k + c) / 6 == k && (6 * k + c) % 6 == c;
  }

  /** The index list: for every i = 0, 4, 8, ... below n the six indices
      i, i+1, i+2, i+2, i+1, i+3. Nothing bounds the last group by n. */
  method QuadIndices(n: nat) returns (indices: seq<nat>)
    ensures |indices| == 6 * ((n + 3) / 4)
    ensures forall t | 0 <= t < |indices| :: indices[t] == QuadIndex(t)
  {
    indices := [];
    var i := 0;
    while i < n
      invariant i % 4 == 0 && i <= n + 3
      invariant |indices| == 6 * (i / 4)
      invariant forall t | 0 <= t < |indices| :: indices[t] == QuadIndex(t)
    {
      var planeTriangle := [i, i + 1, i + 2, i + 2, i + 1, i + 3];
      forall c | 0 <= c < 6
        ensures planeTriangle[c] == QuadIndex(|indices| + c)
      {
        QuadEntry(i / 4, c);
      }
      indices := indices + planeTriangle;
      i := i + 4;
    }
  }

  /** Each index refers to a vertex of its own quad, so quads share no
      vertex and indices never go back to an earlier quad. */
  lemma QuadIndexStaysInItsQuad(t: nat)
    ensures 4 * (t / 6) <= QuadIndex(t) <= 4 * (t / 6) + 3
  {
  }

  /** Indices of a later quad are all larger than those of an earlier one. */
  lemma QuadIndexOrdered(t: nat, u: nat)
    requires t / 6 < u / 6
    ensures QuadIndex(t) < QuadIndex(u)
  {
    QuadIndexStaysInItsQuad(t);
    QuadIndexStaysInItsQuad(u);
  }

  /** Every index of the list for n vertices stays below n exactly when n
      is a multiple of four; otherwise the last quad reaches past the table. */
  lemma {:induction false} IndicesInRange(n: nat)
    ensures (forall t | 0 <= t < 6 * ((n + 3) / 4) :: QuadIndex(t) < n) <==> n % 4 == 0
  {
    var groups := (n + 3) / 4;
    if n % 4 == 0 {
      forall t | 0 <= t < 6 * groups
        ensures QuadIndex(t) < n
      {
        QuadIndexStaysInItsQuad(t);
      }
    } else {
      QuadEntry(groups - 1, 5);
    }
  }

  /** Every vertex of the table is drawn: vertex v is an entry of the list. */
  lemma {:induction false} EveryVertexDrawn(n: nat, v: nat)
    requires v < n
    ensures exists t | 0 <= t < 6 * ((n + 3) / 4) :: QuadIndex(t) == v
  {
    var c := if v % 4 == 3 then 5 else v % 4;
    QuadEntry(v / 4, c);
    assert QuadIndex(6 * (v / 4) + c) == v;
  }

  /** The canvas' drawing-buffer size and the size it is displayed at. */
  datatype Canvas = Canvas(width: int, height: int, clientWidth: int, clientHeight: int)

  /** Resizes the drawing buffer to the displayed size when they differ, and
      says whether it did. The renderer's pixel ratio is the default 1, so
      the buffer takes the client size itself. */
  function ResizeRendererToDisplaySize(c: Canvas): (r: (Canvas, bool))
    ensures r.1 <==> c.width != c.clientWidth || c.height != c.clientHeight
    ensures r.0.width == c.clientWidth && r.0.height == c.clientHeight
    ensures r.0.clientWidth == c.clientWidth && r.0.clientHeight == c.clientHeight
    ensures !r.1 ==> r.0 == c
  {
    var needResize := c.width != c.clientWidth || c.height != c.clientHeight;
    if needResize then (c.(width := c.clientWidth, height := c.clientHeight), true)
    else (c, false)
  }

  /** A second call right after the first finds nothing to do. */
  lemma ResizeIsIdempotent(c: Canvas)
    ensures var once := ResizeRendererToDisplaySize(c).0;
            ResizeRendererToDisplaySize(once) == (once, false)
  {
  }
}

=== FILE: robot.dfy ===
/**
 The robot arm of Exercise 6 (`robot.js`): the authored constants from which
 `createRobot` derives the kinematic chain, the normalization vector, the
 fixed order of the eight controlled nodes, and `setRobotAngles`, which maps
 a solver-space angle vector onto the rotations of those nodes.

 A node's rotation is an `Euler` record; the state of the arm as far as the
 controls are concerned is the sequence of the controlled nodes' rotations,
 in control order.
 */
module Robot {
  import opened Geometry

  /** The nodes of the arm whose rotation is read or written by the control code. */
  datatype Node =
    | BaseDisc
    | BaseDisc2
    | RotationDisc1
    | RotationDisc4
    | RotationCylinder
    | PivotPBtoPRC
    | PliersRotationCylinder
    | PivotPH1toPGB2
    | PivotPH1toPGB1

  /** The rotation each node is given while the arm is assembled. Every
      component starts at zero; the comments name the assignments made. */
  function AuthoredRotation(n: Node): Euler {
    match n
    case BaseDisc => Unrotated
    // rotation.y = π
    case BaseDisc2 => Euler(Zero, Pi, Zero)
    // rotation.x = π/2, then rotation.y -= π/4
    case RotationDisc1 => Euler(PiOver2, Sub(Zero, PiOver4), Zero)
    // rotation.x = π/2, then rotation.y -= 5π/6
    case RotationDisc4 => Euler(PiOver2, Sub(Zero, FiveSixthsPi), Zero)
    case RotationCylinder => Unrotated
    case PivotPBtoPRC => Unrotated
    case PliersRotationCylinder => Unrotated
    // rotation.x += π/6
    case PivotPH1toPGB2 => Euler(Add(Zero, PiOver6), Zero, Zero)
    // rotation.x -= π/6
    case PivotPH1toPGB1 => Euler(Sub(Zero, PiOver6), Zero, Zero)
  }

  /** What assembly does to the controlled nodes' rotations: exactly the
      π-turned base disc, the two rotation discs and the two finger pivots
      are rotated, none about z, and the finger pivots mirror each other. */
  lemma AuthoredPose(n: Node)
    ensures AuthoredRotation(n) != Unrotated
        <==> n in {BaseDisc2, RotationDisc1, RotationDisc4, PivotPH1toPGB2, PivotPH1toPGB1}
    ensures AuthoredRotation(n).z == Zero
    ensures AuthoredRotation(PivotPH1toPGB1).x == Neg(AuthoredRotation(PivotPH1toPGB2).x)
  {
  }

  // Authored placements of the intermediate nodes the link vectors are summed from.
  const A2Position := Vec3(0.0, 1.0, 0.15)
  const D6Position := Vec3(0.0, 0.755, -0.15)
  const UBPosition := Vec3(0.1, -0.3, 0.05)
  const RCPosition := Vec3(0.0, 0.6, 0.0)
  const PBPosition := Vec3(0.0, 0.7, 0.0)
  const PRCJointPosition := Vec3(0.0, 0.3, 0.0)

  /** Dimensions of a `CylinderGeometry`. */
  datatype CylinderDims = CylinderDims(radiusTop: real, radiusBottom: real, height: real)

  const PRCDims := CylinderDims(0.155, 0.155, 0.4)

  /** Link from the shoulder disc to the elbow disc: the arm's and the disc's heights added. */
  function V1(): (v: Vec3)
    ensures v == Vec3(0.0, 1.755, 0.0)
  {
    Vec3(0.0, A2Position.y + D6Position.y, 0.0)
  }

  /** Link from the elbow disc to the upper base: the upper base's placement
      with its y and z components exchanged. */
  function V2(): (v: Vec3)
    ensures v == Vec3(0.1, 0.05, -0.3)
  {
    Vec3(UBPosition.x, UBPosition.z, UBPosition.y)
  }

  /** Link along the forearm: three vertical placements laid along x. */
  function V3(): (v: Vec3)
    ensures v == Vec3(1.6, 0.0, 0.0)
  {
    Vec3(RCPosition.y + PBPosition.y + PRCJointPosition.y, 0.0, 0.0)
  }

  /** Link to the gripper root: minus the height of the pliers rotation cylinder. */
  function V4(): (v: Vec3)
    ensures v == Vec3(0.0, -0.4, 0.0)
  {
    Vec3(0.0, -PRCDims.height, 0.0)
  }

  /** The offset of one joint, read from the authored rotations exactly as
      the assembly reads it (joint 4 is a bare constant). */
  function NormalizationAngle(joint: nat): Angle
    requires joint < 8
  {
    match joint
    case 0 => AuthoredRotation(BaseDisc).y
    case 1 => AuthoredRotation(RotationDisc1).y
    case 2 => Add(AuthoredRotation(RotationDisc4).y, Pi)
    case 3 => AuthoredRotation(RotationCylinder).y
    case 4 => PiOver2
    case 5 => AuthoredRotation(PliersRotationCylinder).y
    case 6 => AuthoredRotation(PivotPH1toPGB2).x
    case 7 => AuthoredRotation(PivotPH1toPGB1).x
  }

  /** The per-joint offsets between solver angles and node rotations. */
  function NormalizationAngles(): (norm: seq<Angle>)
    ensures |norm| == 8
  {
    seq(8, j requires 0 <= j < 8 => NormalizationAngle(j))
  }

  /** The offsets come out as [0, -π/4, π/6, 0, π/2, 0, π/6, -π/6]. */
  lemma NormalizationValues()
    ensures NormalizationAngles()
         == [Zero, Neg(PiOver4), PiOver6, Zero,
             PiOver2, Zero, PiOver6, Neg(PiOver6)]
  {
  }

  /** The controlled nodes, in joint order. */
  const RobotControls: seq<Node> :=
    [BaseDisc2, RotationDisc1, RotationDisc4, RotationCylinder,
     PivotPBtoPRC, PliersRotationCylinder, PivotPH1toPGB2, PivotPH1toPGB1]

  /** What `createRobot` hands back to the scene (the holding point is not modelled). */
  datatype Rig = Rig(normalizationAngles: seq<Angle>, geometry: seq<Vec3>, controls: seq<Node>)

  /** Assembles the arm. `v0`, the shoulder link, is computed by the source
      with cosine and sine of π/4 and is taken here as given. */
  function CreateRobot(v0: Vec3): (r: Rig)
    ensures |r.normalizationAngles| == 8 && |r.geometry| == 5 && |r.controls| == 8
    ensures r.normalizationAngles == NormalizationAngles()
    ensures r.geometry[0] == v0 && r.geometry[1] == Vec3(0.0, 1.755, 0.0)
    ensures r.geometry[2] == Vec3(0.1, 0.05, -0.3) && r.geometry[3] == Vec3(1.6, 0.0, 0.0)
    ensures r.geometry[4] == Vec3(0.0, -0.4, 0.0)
    ensures r.controls == [BaseDisc2, RotationDisc1, RotationDisc4, RotationCylinder,
                           PivotPBtoPRC, PliersRotationCylinder, PivotPH1toPGB2, PivotPH1toPGB1]
    ensures forall i, j | 0 <= i < j < |r.controls| :: r.controls[i] != r.controls[j]
  {
    Rig(NormalizationAngles(), [v0, V1(), V2(), V3(), V4()], RobotControls)
  }

  /** The two lists are in the same joint order, and the offset at index i
      is the authored value of the very component joint i drives on the node
      at index i, exactly for joints 1, 3, 5, 6 and 7. Joint 0's offset is
      read from the base disc rather than the π-turned disc it drives,
      joint 2's offset carries an extra π, and joint 4's is π/2 on an
      unrotated pivot. */
  lemma ControlsMatchOffsets(v0: Vec3, i: nat)
    requires i < 8
    ensures var r := CreateRobot(v0);
            r.normalizationAngles[i] == AuthoredRotation(r.controls[i]).Get(Joints[i].axis)
            <==> i in {1, 3, 5, 6, 7}
  {
    NormalizationValues();
  }

  /** Whether a joint writes its angle as given or negated. */
  datatype Sign = Direct | Inverted

  function Signed(s: Sign, a: Angle): Angle {
    match s
    case Direct => a
    case Inverted => Neg(a)
  }

  /** Which rotation component a joint drives, and with which sign. */
  datatype JointSpec = JointSpec(axis: Axis, sign: Sign)

  /** The actuation table, in joint order (base yaw, shoulder, elbow, wrist
      roll, wrist pitch, end yaw, finger pivot PGB2, finger pivot PGB1). */
  const Joints: seq<JointSpec> :=
    [JointSpec(Y, Direct), JointSpec(Y, Direct), JointSpec(Y, Direct), JointSpec(Y, Direct),
     JointSpec(Z, Inverted), JointSpec(Y, Direct), JointSpec(X, Direct), JointSpec(X, Direct)]

  /** Writes the eight solver angles `a` onto the controlled nodes' rotations,
      one explicit assignment per joint as the source does. Only the first
      eight entries of each argument are used. */
  function SetRobotAngles(controls: seq<Euler>, norm: seq<Angle>, a: seq<Angle>): (r: seq<Euler>)
    requires |controls| >= 8 && |norm| >= 8 && |a| >= 8
    ensures |r| == |controls|
    ensures forall i | 0 <= i < 8 ::
              r[i].Get(Joints[i].axis) == Add(Signed(Joints[i].sign, a[i]), norm[i])
    ensures forall i, ax: Axis | 0 <= i < 8 && ax != Joints[i].axis ::
              r[i].Get(ax) == controls[i].Get(ax)
    ensures forall i | 8 <= i < |controls| :: r[i] == controls[i]
  {
    controls[0 := controls[0].(y := Add(a[0], norm[0]))]
            [1 := controls[1].(y := Add(a[1], norm[1]))]
            [2 := controls[2].(y := Add(a[2], norm[2]))]
            [3 := controls[3].(y := Add(a[3], norm[3]))]
            [4 := controls[4].(z := Add(Neg(a[4]), norm[4]))]
            [5 := controls[5].(y := Add(a[5], norm[5]))]
            [6 := controls[6].(x := Add(a[6], norm[6]))]
            [7 := controls[7].(x := Add(a[7], norm[7]))]
  }

  /** The solver angles a rotation state stands for: remove the offset from
      the driven component and undo the joint's sign. */
  function ReadJointAngles(controls: seq<Euler>, norm: seq<Angle>): (a: seq<Angle>)
    requires |controls| >= 8 && |norm| >= 8
    ensures |a| == 8
  {
    seq(8, i requires 0 <= i < 8 =>
      Signed(Joints[i].sign, Sub(controls[i].Get(Joints[i].axis), norm[i])))
  }

  lemma SignedInvolution(s: Sign, a: Angle)
    ensures Signed(s, Signed(s, a)) == a
  {
  }

  /** Reading a written state back recovers exactly the commanded angles. */
  lemma {:induction false} ReadBack(controls: seq<Euler>, norm: seq<Angle>, a: seq<Angle>)
    requires |controls| >= 8 && |norm| >= 8 && |a| >= 8
    ensures ReadJointAngles(SetRobotAngles(controls, norm, a), norm) == a[..8]
  {
    var r := SetRobotAngles(controls, norm, a);
    var back := ReadJointAngles(r, norm);
    forall i | 0 <= i < 8
      ensures back[i] == a[i]
    {
      var j := Joints[i];
      AddCancels(Signed(j.sign, a[i]), norm[i]);
      SignedInvolution(j.sign, a[i]);
    }
  }

  /** Every call overwrites all eight driven components, so only the last
      command matters: a redundant or superseded call leaves no trace. */
  lemma {:induction false} LastWriteWins(controls: seq<Euler>, norm: seq<Angle>, a: seq<Angle>, b: seq<Angle>)
    requires |controls| >= 8 && |norm| >= 8 && |a| >= 8 && |b| >= 8
    ensures SetRobotAngles(SetRobotAngles(controls, norm, a), norm, b)
         == SetRobotAngles(controls, norm, b)
  {
    var once := SetRobotAngles(controls, norm, b);
    var twice := SetRobotAngles(SetRobotAngles(controls, norm, a), norm, b);
    forall i | 0 <= i < |controls|
      ensures twice[i] == once[i]
    {
      if i < 8 {
        assert twice[i].Get(X) == once[i].Get(X);
        assert twice[i].Get(Y) == once[i].Get(Y);
        assert twice[i].Get(Z) == once[i].Get(Z);
      }
    }
  }

  /** With the offsets of the assembled arm, the finger pivots are written
      the commanded angle plus π/6 and minus π/6 respectively. */
  lemma FingerWrites(controls: seq<Euler>, a: seq<Angle>)
    requires |controls| >= 8 && |a| >= 8
    ensures NormalizationAngles()[6] == PiOver6 && NormalizationAngles()[7] == Neg(PiOver6)
    ensures var r := SetRobotAngles(controls, NormalizationAngles(), a);
            r[6].x == Add(a[6], PiOver6) && r[7].x == Add(a[7], Neg(PiOver6))
  {
    NormalizationValues();
    assert Joints[6] == JointSpec(X, Direct) && Joints[7] == JointSpec(X, Direct);
  }

  /** When the two finger offsets are opposite, as those of the assembled
      arm are, a command whose finger angles are opposite writes opposite
      x-rotations to the two finger pivots. */
  lemma GripperSymmetry(controls: seq<Euler>, norm: seq<Angle>, a: seq<Angle>)
    requires |controls| >= 8 && |norm| >= 8 && |a| >= 8
    requires norm[6] == Neg(norm[7]) && a[7] == Neg(a[6])
    ensures var r := SetRobotAngles(controls, norm, a);
            r[6].x == Neg(r[7].x)
  {
    assert Joints[6] == JointSpec(X, Direct) && Joints[7] == JointSpec(X, Direct);
  }

  /** The rotations of the controlled nodes right after assembly, in joint order. */
  function AuthoredControls(): (c: seq<Euler>)
    ensures |c| == 8
    ensures forall i | 0 <= i < 8 :: c[i] == AuthoredRotation(RobotControls[i])
  {
    [AuthoredRotation(RobotControls[0]), AuthoredRotation(RobotControls[1]),
     AuthoredRotation(RobotControls[2]), AuthoredRotation(RobotControls[3]),
     AuthoredRotation(RobotControls[4]), AuthoredRotation(RobotControls[5]),
     AuthoredRotation(RobotControls[6]), AuthoredRotation(RobotControls[7])]
  }

  const ZeroCommand: seq<Angle> := [Zero, Zero, Zero, Zero, Zero, Zero, Zero, Zero]

  /** A zero angle, with either sign, writes the bare offset. */
  lemma ZeroWritesOffset(s: Sign, offset: Angle)
    ensures Add(Signed(s, Zero), offset) == offset
  {
    assert Signed(s, Zero) == Zero;
  }

  /** A rotation that agrees with `c` off `axis` and holds `v` on it is `c`
      itself exactly when `c` already holds `v` there. */
  lemma SameRotation(e: Euler, c: Euler, axis: Axis, v: Angle)
    requires e.Get(axis) == v
    requires forall ax: Axis | ax != axis :: e.Get(ax) == c.Get(ax)
    ensures e == c <==> c.Get(axis) == v
  {
    if c.Get(axis) == v {
      assert e.Get(X) == c.Get(X) && e.Get(Y) == c.Get(Y) && e.Get(Z) == c.Get(Z);
    }
  }

  /** A zero angle leaves a node exactly as it was if and only if the
      joint's offset already equals the component the joint drives. */
  lemma ZeroAngleKeeps(controls: seq<Euler>, norm: seq<Angle>, a: seq<Angle>, i: nat)
    requires |controls| >= 8 && |norm| >= 8 && |a| >= 8 && i < 8 && a[i] == Zero
    ensures SetRobotAngles(controls, norm, a)[i] == controls[i]
        <==> norm[i] == controls[i].Get(Joints[i].axis)
  {
    var j := Joints[i];
    ZeroWritesOffset(j.sign, norm[i]);
    var r := SetRobotAngles(controls, norm, a);
    SameRotation(r[i], controls[i], j.axis, norm[i]);
  }

  /** An all-zero command puts a joint of the freshly assembled arm back in
      its authored rotation if and only if it is joint 1, 3, 5, 6 or 7. */
  lemma ZeroCommandPose(i: nat)
    requires i < 8
    ensures SetRobotAngles(AuthoredControls(), NormalizationAngles(), ZeroCommand)[i]
            == AuthoredControls()[i]
        <==> i in {1, 3, 5, 6, 7}
  {
    ZeroAngleKeeps(AuthoredControls(), NormalizationAngles(), ZeroCommand, i);
    ControlsMatchOffsets(Vec3(0.0, 0.0, 0.0), i);
  }
}
